=== FILE: README.md ===
# acordes: song catalog, selection and autoscroll

A model of the logic in `app.js`, the script behind a single-page
lyrics-and-chords viewer. The page loads a song catalog, lists it and lets
the user filter it by search. Clicking an entry shows that song's sections,
with each line's chord and lyric. A timer can scroll the page automatically.
The DOM is replaced by explicit state records, and every event handler is a
pure function from state to state.

- `wrappers.dfy` (`Wrappers`): `Option`, for a value the script holds as
  `null`, or the `undefined` that `find` returns on a miss.
- `text.dfy` (`Text`): `toLowerCase` (ASCII letters only), `trim` (the exact
  WhiteSpace and LineTerminator code points of ECMA-262) and `includes`,
  with a recursive containment test proved equal to "occurs at some offset".
- `catalog.dfy` (`Catalog`): the `Song`/`Section`/`Line` records, the
  search filter and lookup by id.
- `render.dfy` (`Render`): the song list's entries, and the song view as a
  token stream. A parser for that stream proves that the view shows
  everything in the song except its id.
- `app.dfy` (`App`): the selection and menu state `{songs, currentSongId,
  menuOpen, content, list}`, plus the load, `loadSong`, menu-toggle and
  search handlers.
- `autoscroll.dfy` (`Autoscroll`): the autoscroll state `{running, handle,
  timers, nextTimer, button label, slider, scrollY}`, plus start, stop,
  button, slider and tick.  `nextTimer` is the handle the next
  `setInterval` returns; `slider` says whether the speed slider exists.
- `page.dfy` (`Page`): the two combined and driven by an `Event`. The
  invariant holds over every sequence of events.
- `scenario.dfy` (`Scenario`): a one-song catalog holding "Amazing Grace",
  worked through search and display.

The environment appears only as parameters:
- the parsed result of the fetch (None when it failed);
- the initial menu state;
- the initial button label, and whether the button and the slider exist;
- the scroll position the page opens at;
- the step `startAutoscroll` computes from the slider;
- `maxScroll` at each tick.

Two behaviours of the autoscroll code are easy to miss:
- `startAutoscroll` does not check that the controller is stopped. Called
  while running, it overwrites `autoscrollInterval` (app.js:175) and leaves
  the old interval live (`Autoscroll.StartWhileRunningLeaks`). The button
  handler starts only a stopped controller, and the slider handler stops
  first (`Page.RunPreservesInv`).
- `setupAutoscroll` and `startAutoscroll` return early when the button or
  the slider is missing (app.js:148, 169; `Autoscroll.HasControls`).

## Model

| member | source | states |
|---|---|---|
| `Text.Lower` | app.js:110 | the lowercased query has the same length, and each character is the ASCII-lowercased input character |
| `Text.LowerIdempotent` | app.js:110 | lowercasing twice is the same as lowercasing once |
| `Text.Trim` | app.js:110 | the trimmed query is a slice of the input, everything removed on either side is white space or a line terminator, and the result neither starts nor ends with one |
| `Text.TrimEmptyIff` | app.js:110-112 | a string trims to the empty string exactly when every character of it is white space or a line terminator |
| `Text.TrimIdempotent` | app.js:110 | trimming twice is the same as trimming once |
| `Text.ContainsHasOccurrence` | app.js:118-119 | when `includes` holds, the query occurs at some offset of the string |
| `Text.OccurrenceIsContained` | app.js:118-119 | a query occurring at any offset makes `includes` hold |
| `Text.ContainsIff` | app.js:118-119 | `includes` holds exactly when the query occurs at some offset of the string |
| `Catalog.Filter` | app.js:117-120 | the filtered list is no longer than the catalog, and a song is in it exactly when it is in the catalog and its lowercased title or artist contains the term |
| `Catalog.MatchPositions` | app.js:117-120 | the positions are strictly increasing catalog indexes, and an index is among them exactly when the song there matches |
| `Catalog.FilterAtPositions` | app.js:117-120 | the filtered list is the catalog read at the matching positions: an order-preserving subsequence that holds every match and nothing else |
| `Catalog.FilterNonEmptyIff` | app.js:117-125 | the filtered list is non-empty exactly when some catalog song matches |
| `Catalog.Find` | app.js:54 | lookup misses exactly when no song has the id; on a hit it returns the song at the first position with that id |
| `Catalog.FindIsFirst` | app.js:54 | lookup returns exactly the first song carrying the id |
| `Render.Entries` | app.js:42-49 | one entry per song, in order, with text title + " - " + artist and that song's id |
| `Render.RenderSongList` | app.js:38-49 | with no list passed, every catalog song is rendered in order; with a list passed (even an empty one, since `[]` is truthy) exactly that list is rendered |
| `Render.ParseLinesRoundTrip` | app.js:78-85 | the rows of a section read back as its lines, chord and lyric in order |
| `Render.ParseSectionsRoundTrip` | app.js:74-88 | the section blocks read back as the song's sections, type and lines in order |
| `Render.RenderSongRoundTrip` | app.js:66-88 | reading the song view back gives the song's title, artist and every section, so the view loses nothing but the id |
| `Render.RenderSongInjective` | app.js:66-88 | two songs that render the same view have the same title, artist and sections |
| `App.Init` | app.js:18-35 | a failed load leaves the catalog and the list empty and shows the error message; a successful one lists the whole catalog, entry i being song i's `title - artist` with its id; nothing is selected; the invariant holds |
| `App.LoadSongMiss` | app.js:54-55 | a `loadSong` with an id no song has changes nothing: selection, menu, content and list all stay the same |
| `App.LoadSongHit` | app.js:53-95 | a `loadSong` hit selects the id, closes the menu, and shows the first song with that id in full; the catalog and the list are kept |
| `App.LoadSongPreservesInv` | app.js:53-95 | after `loadSong` the view is still the rendering of the first song with the selected id |
| `App.ClickedEntryIsHit` | app.js:47-57 | clicking any rendered list entry is always a hit: it selects the entry's id and shows the first catalog song carrying that id, which is another song than the clicked one when an earlier song shares the id |
| `App.ToggleMenu` | app.js:104-106 | the toggle flips the menu, changes nothing else and keeps the invariant |
| `App.NormalizeEmptyIff` | app.js:110-112 | a query normalises to the empty string exactly when it is all white space |
| `App.Search` | app.js:109-128 | a search keeps the catalog, the selection and the view; it never closes the menu; afterwards the menu is open exactly when it was open before or some song matches a non-empty term |
| `App.SearchEmptyQuery` | app.js:110-115 | an all-white-space query lists the whole catalog in order, exactly the list `renderSongList()` builds, and leaves the menu alone |
| `App.SearchNonEmptyQuery` | app.js:117-122 | any other query lists, in catalog order, an entry for each matching song and for no other |
| `App.EntriesFromCatalog` | app.js:42-49 | entries rendered from catalog songs name ids that the catalog contains |
| `App.SearchPreservesInv` | app.js:109-128 | after a search every list entry still names a catalog song |
| `Autoscroll.Initial` | app.js:13-15 | the controller starts stopped, with no handle and no live interval, at the scroll position the page opened at |
| `Autoscroll.InitialInv` | app.js:13-15 | the initial controller satisfies the invariant |
| `Autoscroll.Start` | app.js:166-183 | without both controls, start does nothing; otherwise it sets the flag and the "Stop Scroll" label and stores a handle to a new interval with the given step, leaving every other live interval untouched |
| `Autoscroll.Stop` | app.js:185-193 | stop always ends with the flag cleared and no handle; it resets the label to "Auto Scroll" when the button exists; exactly the stored interval is cancelled; under the invariant no interval is left |
| `Autoscroll.StopIdempotent` | app.js:185-193 | stopping twice gives the same state as stopping once |
| `Autoscroll.ButtonClick` | app.js:150-156 | with both controls present, a click flips the running flag: it stops a running controller and starts a stopped one |
| `Autoscroll.SliderInput` | app.js:158-163 | a slider change while stopped changes nothing; while running, it is exactly a stop followed by a start: the controller keeps running, labelled "Stop Scroll", on one new interval with the new step, with the scroll position and slider untouched |
| `Autoscroll.Tick` | app.js:175-182 | an interval that is not live never fires; within two pixels of the bottom a tick is a stop; otherwise it advances the scroll position by the interval's step and changes nothing else |
| `Autoscroll.StartFromStoppedInv` | app.js:166-183 | starting a stopped controller keeps the invariant |
| `Autoscroll.StartWhileRunningLeaks` | app.js:170-175 | starting a running controller would leave two intervals live |
| `Autoscroll.ButtonClickPreservesInv` | app.js:150-156 | a button click keeps the invariant |
| `Autoscroll.SliderInputPreservesInv` | app.js:158-163 | a slider change keeps the invariant |
| `Autoscroll.TickPreservesInv` | app.js:175-182 | a tick keeps the invariant |
| `Autoscroll.AtMostOneTimer` | app.js:166-193 | under the invariant at most one interval is live |
| `Autoscroll.TicksAfterStop` | app.js:175-190 | once stopped, no number of ticks changes anything |
| `Autoscroll.TicksWithZeroStep` | app.js:175-182 | with a step of 0, a run that is not yet at the bottom is left unchanged by any number of ticks |
| `Autoscroll.TicksReachBottom` | app.js:175-182 | with a positive step and a fixed maxScroll, a run is stopped after n + 1 ticks once n steps reach within two pixels of the bottom |
| `Page.InitInv` | app.js:18-23 | the page satisfies the invariant once `init` has run |
| `Page.StepPreservesInv` | app.js:101-198 | every event handler keeps the invariant |
| `Page.RunPreservesInv` | app.js:101-198 | after any sequence of events the invariant holds and at most one interval is live |
| `Page.ManualScrollStops` | app.js:196-198 | a wheel, touchmove or resize event is a stop in any state and changes nothing else |
| `Page.ToggleTwiceRestores` | app.js:104-106 | one click of the menu toggle flips the menu, and two give back the page as it was |
| `Page.SliderWhileStoppedIsNoop` | app.js:158-163 | moving the slider while autoscroll is stopped leaves the whole page unchanged |
| `Page.EntryClickShowsSong` | app.js:47-98 | clicking a list entry selects its id and shows the first catalog song carrying that id (another song when an earlier one shares the id), and scrolls to the top; the autoscroll controller is left as it was, so it keeps running if it was running |
| `Page.AutoscrollClickToggles` | app.js:150-156 | with both controls present, a click of the autoscroll button flips the running flag and leaves the song and menu state alone |
| `Page.IntervalAdvances` | app.js:175-182 | a live interval firing short of the bottom moves the page down by that interval's step and leaves the song and menu state alone |
| `Page.BlankSearchListsCatalog` | app.js:109-115 | typing an all-white-space query lists the whole catalog again and leaves the autoscroll controller alone |
| `Scenario.SearchGraceFindsIt` | app.js:109-128 | in a one-song catalog, the query " Grace " lists "Amazing Grace - Traditional" and opens the menu |
| `Scenario.ShowGraceDisplaysIt` | app.js:66-91 | in a one-song catalog, showing song 1 displays its title, its artist, the "verse" section and the row pairing "G" with "Amazing grace" |
| `Scenario.SharedIdShowsFirst` | app.js:47-54 | with two songs both carrying id 7, clicking the entry "B - y" shows song "A", not song "B", because the click looks the id up and `find` returns the first match |

## Left out

- `Text.Lower`: lowercases only the ASCII letters A-Z; `toLowerCase` also lowercases letters outside ASCII, following the Unicode tables.
- The fetch and `response.json()` in `loadSongs` are network and JSON I/O. Their outcome is the `fetched` parameter of `Init`. The console logging is left out.
- Malformed catalog records, and a parsed body that is not an array of songs. The datatypes admit only an array of songs with every field present and every text field a string. A JSON body of `null` sets `songs` to `null` (app.js:29). The logging at app.js:30 then throws, so the error message is shown. Then `renderSongList()` throws at app.js:42, so `init` never attaches the toggle, search or autoscroll handlers (app.js:21-22). A body such as an object holding the array shows no error message, but throws at app.js:42 in the same way. In the script, a missing `title`, `artist` or `chord` is shown as the text "undefined" (app.js:45, 68-69, 81). A missing or non-string title or artist throws in the search handler (app.js:118-119). A missing `lyrics` throws at app.js:74, after `currentSongId` has already been set (app.js:57).
- Dafny strings are sequences of Unicode scalar values, while JavaScript strings are sequences of UTF-16 code units. A lone surrogate, from the JSON or from the search field, cannot be represented.
- Song ids are integers. The script only compares an id with ids from the same catalog using `===`, so the JSON type does not matter.
- The exact `innerHTML` markup, whitespace, class names and the escaping of song fields. The song view is a token stream.
- Hiding the welcome message and adding the `active` class to the song container. Both are pure presentation.
- The document click handler: every branch of it returns without effect.
- The speed arithmetic of `startAutoscroll`. It calls `parseInt` with radix 40, which is NaN under ECMA-262 (radix above 36), so the computed step and interval are NaN. The step is an abstract parameter, and the interval length is not modelled. Under the "normalize non-finite values" rule of the CSSOM View specification, `scrollBy(0, NaN)` scrolls by 0. So the page as written never advances while autoscrolling: a run ends only through a stop event, or when the page is already at the bottom (`Autoscroll.TicksWithZeroStep`). `Autoscroll.TicksReachBottom` assumes a positive step, which the page as written never has.
- Scroll positions are integers. `window.scrollY` and the page heights are doubles, and can be fractional under zoom or a fractional device-pixel ratio. So the bottom test at app.js:177 really compares real numbers.
- Real timers and interval timing. A tick is an event naming the interval that fired.
- `document.body.scrollHeight` and `window.innerHeight`. Their difference, `maxScroll`, is an input to each tick.
- The smooth `scrollTo` of `loadSong`. It is modelled as an immediate move of the scroll position to 0.
- The browser's clamping of `scrollBy` to the document, and any scrolling the user does through the wheel, touch, keyboard or scrollbar. Only ticks and `loadSong` move the modelled scroll position.
- The `DOMContentLoaded` wiring, and events arriving before `init` finishes. The model starts from the page as `init` leaves it.

=== FILE: app.dfy ===
/** The page's selection and menu state with the handlers that change it:
    the catalog load, `loadSong`, the menu toggle and the search input. */
module App {
  import opened Wrappers
  import opened Text
  import opened Catalog
  import opened Render

  /** What the song container shows */
  datatype Content =
    | Welcome                  // the page's initial content
    | LoadError                // "Error loading songs. Please try again later."
    | Showing(tokens: seq<Token>)

  datatype AppState = AppState(
    songs: seq<Song>,
    currentSongId: Option<SongId>,
    menuOpen: bool,
    content: Content,
    list: seq<ListEntry>)

  /** Every list entry names a song of the catalog, and a song is displayed
      exactly when one is selected, rendered from the first catalog entry
      with the selected id. */
  predicate Inv(s: AppState) {
    ListNamesCatalog(s.list, s.songs) && ViewMatchesSelection(s)
  }

  predicate ListNamesCatalog(list: seq<ListEntry>, songs: seq<Song>) {
    forall k :: 0 <= k < |list| ==> HasId(songs, list[k].songId)
  }

  predicate ViewMatchesSelection(s: AppState) {
    && (s.currentSongId.Some? <==> s.content.Showing?)
    && (s.currentSongId.Some? ==>
          && Find(s.songs, s.currentSongId.value).Some?
          && s.content.tokens == RenderSong(Find(s.songs, s.currentSongId.value).value))
  }

  /** `init` up to its listeners: `loadSongs` (fetched is the parsed
      response, None when the fetch or the JSON parse failed, in which case
      the catalog stays empty and the error message is shown), then
      `renderSongList()`. The initial menu state comes from the page. */
  function Init(fetched: Option<seq<Song>>, menuOpen: bool): (s: AppState)
    ensures fetched.Some? ==> s.songs == fetched.value && s.content == Welcome
    ensures fetched.None? ==> s.songs == [] && s.content == LoadError && s.list == []
    ensures |s.list| == |s.songs|
    ensures forall i :: 0 <= i < |s.songs| ==> s.list[i] == ListEntry(EntryText(s.songs[i]), s.songs[i].id)
    ensures s.currentSongId == None && s.menuOpen == menuOpen
    ensures Inv(s)
  {
    var songs := ValueOr(fetched, []);
    var s := AppState(songs, None, menuOpen, if fetched.None? then LoadError else Welcome,
                      RenderSongList(None, songs));
    assert forall k :: 0 <= k < |s.list| ==> s.list[k].songId == songs[k].id;
    s
  }

  /** `loadSong(songId)`: a miss returns early; a hit selects the id,
      shows the first song with that id and closes the menu. */
  function LoadSong(s: AppState, id: SongId): AppState {
    match Find(s.songs, id)
    case None => s
    case Some(song) =>
      s.(currentSongId := Some(id), content := Showing(RenderSong(song)), menuOpen := false)
  }

  /** A miss changes nothing at all. */
  lemma LoadSongMiss(s: AppState, id: SongId)
    requires !HasId(s.songs, id)
    ensures LoadSong(s, id) == s
  {
  }

  /** A hit on the song at position i (the first with that id) selects the
      id, closes the menu, and shows that song's title, artist and sections
      in full; the catalog and the list stay as they were. */
  lemma LoadSongHit(s: AppState, id: SongId, i: int)
    requires IsFirstWithId(s.songs, id, i)
    ensures LoadSong(s, id).currentSongId == Some(id)
    ensures !LoadSong(s, id).menuOpen
    ensures LoadSong(s, id).content.Showing?
    ensures ParseSong(LoadSong(s, id).content.tokens) == Some(ViewOf(s.songs[i]))
    ensures LoadSong(s, id).songs == s.songs && LoadSong(s, id).list == s.list
  {
    FindIsFirst(s.songs, id, i);
    RenderSongRoundTrip(s.songs[i]);
  }

  lemma LoadSongPreservesInv(s: AppState, id: SongId)
    requires Inv(s)
    ensures Inv(LoadSong(s, id))
  {
  }

  /** Clicking any entry of the rendered list is always a hit: it selects
      the entry's id and shows the first catalog song carrying that id,
      which is another song than the clicked one when an earlier song
      shares its id. */
  lemma ClickedEntryIsHit(s: AppState, k: int)
    requires Inv(s) && 0 <= k < |s.list|
    ensures LoadSong(s, s.list[k].songId).currentSongId == Some(s.list[k].songId)
    ensures LoadSong(s, s.list[k].songId).content.Showing?
    ensures Find(s.songs, s.list[k].songId).Some?
    ensures LoadSong(s, s.list[k].songId).content
            == Showing(RenderSong(Find(s.songs, s.list[k].songId).value))
  {
    assert HasId(s.songs, s.list[k].songId);
  }

  /** The menu toggle button flips the menu and touches nothing else. */
  function ToggleMenu(s: AppState): (r: AppState)
    ensures r.menuOpen == !s.menuOpen
    ensures r.(menuOpen := s.menuOpen) == s
    ensures Inv(s) ==> Inv(r)
  {
    s.(menuOpen := !s.menuOpen)
  }

  /** `e.target.value.toLowerCase().trim()` */
  function NormalizeQuery(raw: string): string {
    Trim(Lower(raw))
  }

  /** A query normalises to nothing exactly when it is all white space. */
  lemma NormalizeEmptyIff(raw: string)
    ensures NormalizeQuery(raw) == [] <==> AllTrimmable(raw)
  {
    var low := Lower(raw);
    TrimEmptyIff(low);
    assert forall k :: 0 <= k < |raw| ==> (IsTrimmable(low[k]) <==> IsTrimmable(raw[k]));
  }

  /** The search `input` handler. The list is re-rendered from the
      normalised query, and names only catalog songs; the menu may be
      opened, never closed; the catalog, the selection and the song view
      are untouched. */
  function Search(s: AppState, raw: string): (r: AppState)
    ensures r.songs == s.songs && r.currentSongId == s.currentSongId && r.content == s.content
    ensures ListNamesCatalog(r.list, s.songs)
    ensures s.menuOpen ==> r.menuOpen
    ensures r.menuOpen <==>
              || s.menuOpen
              || (NormalizeQuery(raw) != [] &&
                  exists i :: 0 <= i < |s.songs| && Matches(s.songs[i], NormalizeQuery(raw)))
  {
    var term := NormalizeQuery(raw);
    if term == [] then
      EntriesFromCatalog(s.songs, s.songs);
      s.(list := RenderSongList(None, s.songs))
    else
      var filtered := Filter(s.songs, term);
      FilterNonEmptyIff(s.songs, term);
      EntriesFromCatalog(filtered, s.songs);
      var r := s.(list := RenderSongList(Some(filtered), s.songs));
      if |filtered| > 0 && !s.menuOpen then r.(menuOpen := true) else r
  }

  /** An all-white-space query lists the whole catalog, in order, and leaves
      the menu as it was. */
  lemma SearchEmptyQuery(s: AppState, raw: string)
    requires AllTrimmable(raw)
    ensures |Search(s, raw).list| == |s.songs|
    ensures forall i :: 0 <= i < |s.songs| ==>
              Search(s, raw).list[i] == ListEntry(EntryText(s.songs[i]), s.songs[i].id)
    ensures Search(s, raw).menuOpen == s.menuOpen
    ensures Search(s, raw).list == Entries(s.songs)
  {
    NormalizeEmptyIff(raw);
  }

  /** Any other query lists, in catalog order, exactly the songs whose
      lowercased title or artist contains the normalised query. */
  lemma SearchNonEmptyQuery(s: AppState, raw: string)
    requires !AllTrimmable(raw)
    ensures var ps := MatchPositions(s.songs, NormalizeQuery(raw));
            && |Search(s, raw).list| == |ps|
            && forall k :: 0 <= k < |ps| ==>
                 Search(s, raw).list[k] == ListEntry(EntryText(s.songs[ps[k]]), s.songs[ps[k]].id)
  {
    NormalizeEmptyIff(raw);
    FilterAtPositions(s.songs, NormalizeQuery(raw));
  }

  /** Entries rendered from songs of the catalog name songs of the catalog. */
  lemma EntriesFromCatalog(shown: seq<Song>, songs: seq<Song>)
    requires forall x :: x in shown ==> x in songs
    ensures ListNamesCatalog(Entries(shown), songs)
  {
    forall k | 0 <= k < |Entries(shown)|
      ensures HasId(songs, Entries(shown)[k].songId)
    {
      assert shown[k] in shown;
      var i :| 0 <= i < |songs| && songs[i] == shown[k];
    }
  }

  lemma SearchPreservesInv(s: AppState, raw: string)
    requires Inv(s)
    ensures Inv(Search(s, raw))
  {
    var r := Search(s, raw);
    assert ViewMatchesSelection(r);
  }
}


=== FILE: autoscroll.dfy ===
/** The autoscroll controller: `startAutoscroll`, `stopAutoscroll`, the
    button and slider handlers of `setupAutoscroll`, and the interval tick.
    The environment's intervals are part of the state, so that "the stop
    cancels the running timer" and "at most one timer runs" can be stated. */
module Autoscroll {
  import opened Wrappers

  const AutoLabel: string := "Auto Scroll"
  const StopLabel: string := "Stop Scroll"

  /** `setInterval` handles: browsers hand out positive integers, so a
      stored handle is always truthy. */
  type TimerId = n: int | n >= 1 witness 1

  /** running and handle are `isAutoscrolling` and `autoscrollInterval`;
      timers maps every live interval to the step its callback scrolls by;
      nextTimer is the handle the next `setInterval` returns; button is the
      autoscroll button's text (None when the page has no such button);
      slider says whether the speed slider exists; scrollY is the window's
      vertical scroll position. */
  datatype Scroller = Scroller(
    running: bool,
    handle: Option<TimerId>,
    timers: map<TimerId, int>,
    nextTimer: TimerId,
    button: Option<string>,
    slider: bool,
    scrollY: int)

  /** Both controls exist: the guard of `setupAutoscroll` and `startAutoscroll` */
  predicate HasControls(s: Scroller) {
    s.button.Some? && s.slider
  }

  /** The state before any handler ran: button is the button's initial
      text, scrollY the position the page opened at. */
  function Initial(button: Option<string>, slider: bool, scrollY: int): (s: Scroller)
    ensures !s.running && s.handle == None && s.timers == map[]
    ensures s.button == button && s.slider == slider && s.scrollY == scrollY
  {
    Scroller(false, None, map[], 1, button, slider, scrollY)
  }

  /** The flag mirrors the handle, exactly the stored handle is live, a
      running controller labels its button "Stop Scroll", and the next
      handle is fresh. */
  predicate Inv(s: Scroller) {
    && (s.running <==> s.handle.Some?)
    && (s.handle.None? ==> s.timers == map[])
    && (s.handle.Some? ==> s.timers.Keys == {s.handle.value})
    && (s.running ==> s.button == Some(StopLabel))
    && (forall t :: t in s.timers ==> t < s.nextTimer)
  }

  lemma InitialInv(button: Option<string>, slider: bool, scrollY: int)
    ensures Inv(Initial(button, slider, scrollY))
  {
  }

  /** `startAutoscroll`, with step the pixels per interval it computes from
      the slider. Without both controls it returns at once; otherwise it
      raises the flag, relabels the button and schedules a new interval,
      leaving every interval already live in place. */
  function Start(s: Scroller, step: int): (r: Scroller)
    ensures !HasControls(s) ==> r == s
    ensures HasControls(s) ==>
              && r.running && r.button == Some(StopLabel)
              && r.handle.Some? && r.handle.value in r.timers && r.timers[r.handle.value] == step
              && r.timers.Keys == s.timers.Keys + {r.handle.value}
              && (forall t :: t in s.timers && t != r.handle.value ==> r.timers[t] == s.timers[t])
              && r.scrollY == s.scrollY && r.slider == s.slider
    ensures HasControls(s) && Inv(s) ==> r.handle.value !in s.timers
  {
    if !HasControls(s) then s
    else
      s.(running := true, button := Some(StopLabel), handle := Some(s.nextTimer),
         timers := s.timers[s.nextTimer := step], nextTimer := s.nextTimer + 1)
  }

  /** `stopAutoscroll`: clears the stored interval if there is one, lowers
      the flag and resets the button's label if the button exists. */
  function Stop(s: Scroller): (r: Scroller)
    ensures !r.running && r.handle == None
    ensures r.button.Some? == s.button.Some?
    ensures r.button.Some? ==> r.button.value == AutoLabel
    ensures s.handle.Some? ==> r.timers.Keys == s.timers.Keys - {s.handle.value}
    ensures s.handle.None? ==> r.timers == s.timers
    ensures forall t :: t in r.timers ==> t in s.timers && r.timers[t] == s.timers[t]
    ensures r.scrollY == s.scrollY && r.slider == s.slider && r.nextTimer == s.nextTimer
    ensures Inv(s) ==> r.timers == map[] && Inv(r)
  {
    var timers := if s.handle.Some? then s.timers - {s.handle.value} else s.timers;
    var button := if s.button.Some? then Some(AutoLabel) else None;
    var r := s.(running := false, handle := None, timers := timers, button := button);
    assert Inv(s) ==> r.timers.Keys == {};
    r
  }

  /** Stopping a stopped controller changes nothing. */
  lemma StopIdempotent(s: Scroller)
    ensures Stop(Stop(s)) == Stop(s)
  {
  }

  /** The autoscroll button's click handler. It is attached only when both
      controls exist; it stops a running controller and starts a stopped one. */
  function ButtonClick(s: Scroller, step: int): (r: Scroller)
    ensures !HasControls(s) ==> r == s
    ensures HasControls(s) ==> r.running == !s.running
    ensures HasControls(s) && s.running ==> r == Stop(s)
    ensures HasControls(s) && !s.running ==> r == Start(s, step)
  {
    if !HasControls(s) then s
    else if s.running then Stop(s)
    else Start(s, step)
  }

  /** The slider's input handler: while running it restarts at the new
      step, with the old interval cancelled; while stopped it does nothing. */
  function SliderInput(s: Scroller, step: int): (r: Scroller)
    ensures !HasControls(s) || !s.running ==> r == s
    ensures HasControls(s) && s.running ==>
              && r.running && r.handle.Some?
              && r.handle.value in r.timers && r.timers[r.handle.value] == step
              && (Inv(s) ==> r.timers.Keys == {r.handle.value})
              && r.button == Some(StopLabel) && r.scrollY == s.scrollY && r.slider == s.slider
    ensures HasControls(s) && s.running ==> r == Start(Stop(s), step)
  {
    if !HasControls(s) || !s.running then s
    else Start(Stop(s), step)
  }

  /** One run of the callback of interval t, with maxScroll the document's
      height less the viewport's. An interval that is not live never fires.
      Within two pixels of the bottom the tick stops the controller;
      otherwise it scrolls by the interval's step and changes nothing else. */
  function Tick(s: Scroller, t: TimerId, maxScroll: int): (r: Scroller)
    ensures t !in s.timers ==> r == s
    ensures t in s.timers && s.scrollY >= maxScroll - 2 ==> r == Stop(s)
    ensures t in s.timers && s.scrollY < maxScroll - 2 ==>
              && r.scrollY == s.scrollY + s.timers[t]
              && r.(scrollY := s.scrollY) == s
  {
    if t !in s.timers then s
    else if s.scrollY >= maxScroll - 2 then Stop(s)
    else s.(scrollY := s.scrollY + s.timers[t])
  }

  /** n ticks of interval t against a fixed maxScroll */
  function Ticks(s: Scroller, t: TimerId, maxScroll: int, n: nat): Scroller
    decreases n
  {
    if n == 0 then s else Ticks(Tick(s, t, maxScroll), t, maxScroll, n - 1)
  }

  lemma StartFromStoppedInv(s: Scroller, step: int)
    requires Inv(s) && !s.running
    ensures Inv(Start(s, step))
  {
  }

  /** Starting while already running would leave the old interval live:
      this is why the button and the slider stop first. */
  lemma StartWhileRunningLeaks(s: Scroller, step: int)
    requires Inv(s) && s.running && HasControls(s)
    ensures |Start(s, step).timers.Keys| == 2
  {
    var r := Start(s, step);
    assert r.timers.Keys == {s.handle.value, r.handle.value};
  }

  lemma ButtonClickPreservesInv(s: Scroller, step: int)
    requires Inv(s)
    ensures Inv(ButtonClick(s, step))
  {
  }

  lemma SliderInputPreservesInv(s: Scroller, step: int)
    requires Inv(s)
    ensures Inv(SliderInput(s, step))
  {
  }

  lemma TickPreservesInv(s: Scroller, t: TimerId, maxScroll: int)
    requires Inv(s)
    ensures Inv(Tick(s, t, maxScroll))
  {
  }

  /** Under the invariant at most one interval is ever live. */
  lemma AtMostOneTimer(s: Scroller)
    requires Inv(s)
    ensures |s.timers.Keys| <= 1
  {
    if s.handle.Some? {
      assert s.timers.Keys == {s.handle.value};
    }
  }

  /** Once stopped, no tick changes anything. */
  lemma TicksAfterStop(s: Scroller, t: TimerId, maxScroll: int, n: nat)
    requires Inv(s) && !s.running
    ensures Ticks(s, t, maxScroll, n) == s
  {
  }

  /** With a step of 0 (what `scrollBy` makes of a NaN step) a run that is
      not yet at the bottom never moves and never stops by ticking alone. */
  lemma {:induction false} TicksWithZeroStep(s: Scroller, maxScroll: int, n: nat)
    requires Inv(s) && s.running
    requires s.timers[s.handle.value] == 0
    requires s.scrollY < maxScroll - 2
    ensures Ticks(s, s.handle.value, maxScroll, n) == s
    decreases n
  {
    if n > 0 {
      var t := s.handle.value;
      assert Tick(s, t, maxScroll) == s;
      TicksWithZeroStep(s, maxScroll, n - 1);
    }
  }

  /** With a positive step and a document that does not grow, a run ends:
      if n steps carry the position to within two pixels of the bottom,
      the controller is stopped after n + 1 ticks. */
  lemma {:induction false} TicksReachBottom(s: Scroller, maxScroll: int, n: nat)
    requires Inv(s) && s.running
    requires s.timers[s.handle.value] >= 1
    requires s.scrollY + n * s.timers[s.handle.value] >= maxScroll - 2
    ensures !Ticks(s, s.handle.value, maxScroll, n + 1).running
    decreases n
  {
    var t := s.handle.value;
    var step := s.timers[t];
    var s' := Tick(s, t, maxScroll);
    if s.scrollY >= maxScroll - 2 {
      TicksAfterStop(s', t, maxScroll, n);
    } else {
      assert n >= 1;
      assert s'.scrollY + (n - 1) * step == s.scrollY + n * step;
      TicksReachBottom(s', maxScroll, n - 1);
    }
  }
}

=== FILE: catalog.dfy ===
/** The song catalog: the records loaded from the JSON resource, the
    search filter over them and lookup by id. */
module Catalog {
  import opened Wrappers
  import opened Text

  type SongId = int

  /** One chord/lyric pair; the chord may be empty. */
  datatype Line = Line(chord: string, lyric: string)

  /** A labelled block of lines ("verse", "chorus", ...); the label is the
      record's `type` field. */
  datatype Section = Section(kind: string, lines: seq<Line>)

  datatype Song = Song(id: SongId, title: string, artist: string, lyrics: seq<Section>)

  /** The search predicate for an already normalised term: the lowercased
      title or the lowercased artist contains it. */
  predicate Matches(song: Song, term: string) {
    Contains(Lower(song.title), term) || Contains(Lower(song.artist), term)
  }

  /** `songs.filter(...)` with the search predicate, in catalog order */
  function Filter(songs: seq<Song>, term: string): (r: seq<Song>)
    ensures |r| <= |songs|
    ensures forall x :: x in r <==> x in songs && Matches(x, term)
  {
    if songs == [] then []
    else
      var last := songs[|songs| - 1];
      var init := songs[..|songs| - 1];
      assert songs == init + [last];
      Filter(init, term) + (if Matches(last, term) then [last] else [])
  }

  /** The positions, in increasing order, of the songs the search keeps */
  function MatchPositions(songs: seq<Song>, term: string): (ps: seq<nat>)
    ensures forall k :: 0 <= k < |ps| ==> ps[k] < |songs|
    ensures forall k, l :: 0 <= k < l < |ps| ==> ps[k] < ps[l]
    ensures forall i :: 0 <= i < |songs| ==> (i in ps <==> Matches(songs[i], term))
  {
    if songs == [] then []
    else
      var n := |songs| - 1;
      var init := songs[..n];
      var ps0 := MatchPositions(init, term);
      assert forall i :: 0 <= i < n ==> init[i] == songs[i];
      ps0 + (if Matches(songs[n], term) then [n] else [])
  }

  /** The filter result is exactly the catalog read at the matching
      positions: an order-preserving subsequence holding every match and
      nothing else. */
  lemma {:induction false} FilterAtPositions(songs: seq<Song>, term: string)
    ensures |Filter(songs, term)| == |MatchPositions(songs, term)|
    ensures forall k :: 0 <= k < |Filter(songs, term)| ==>
              Filter(songs, term)[k] == songs[MatchPositions(songs, term)[k]]
  {
    if songs != [] {
      var n := |songs| - 1;
      var init := songs[..n];
      FilterAtPositions(init, term);
      var f0, ps0 := Filter(init, term), MatchPositions(init, term);
      var f, ps := Filter(songs, term), MatchPositions(songs, term);
      var keep := Matches(songs[n], term);
      assert f == f0 + (if keep then [songs[n]] else []);
      assert ps == ps0 + (if keep then [n] else []);
      forall k | 0 <= k < |f|
        ensures f[k] == songs[ps[k]]
      {
        if k < |f0| {
          assert f[k] == f0[k] == init[ps0[k]];
        }
      }
    }
  }

  /** A non-empty filter result exactly when some song matches */
  lemma FilterNonEmptyIff(songs: seq<Song>, term: string)
    ensures |Filter(songs, term)| > 0 <==> exists i :: 0 <= i < |songs| && Matches(songs[i], term)
  {
    var f := Filter(songs, term);
    if |f| > 0 {
      assert f[0] in f;
    }
    if exists i :: 0 <= i < |songs| && Matches(songs[i], term) {
      var i :| 0 <= i < |songs| && Matches(songs[i], term);
      assert songs[i] in f;
    }
  }

  predicate HasId(songs: seq<Song>, id: SongId) {
    exists i :: 0 <= i < |songs| && songs[i].id == id
  }

  /** Index of the first song with the given id */
  predicate IsFirstWithId(songs: seq<Song>, id: SongId, i: int) {
    && 0 <= i < |songs|
    && songs[i].id == id
    && forall j :: 0 <= j < i ==> songs[j].id != id
  }

  /** `songs.find(s => s.id === id)`: the first song with that id, or None
      when there is none. */
  function Find(songs: seq<Song>, id: SongId): (r: Option<Song>)
    ensures r.None? <==> !HasId(songs, id)
    ensures r.Some? ==> exists i :: IsFirstWithId(songs, id, i) && songs[i] == r.value
  {
    if songs == [] then None
    else if songs[0].id == id then
      assert IsFirstWithId(songs, id, 0);
      Some(songs[0])
    else
      var r := Find(songs[1..], id);
      if r.Some? then
        var i :| IsFirstWithId(songs[1..], id, i) && songs[1..][i] == r.value;
        assert IsFirstWithId(songs, id, i + 1);
        r
      else
        assert !HasId(songs, id) by {
          forall i | 0 <= i < |songs|
            ensures songs[i].id != id
          {
            if i > 0 {
              assert songs[i] == songs[1..][i - 1];
            }
          }
        }
        r
  }

  /** The first song with an id is unique, so Find returns exactly it. */
  lemma FindIsFirst(songs: seq<Song>, id: SongId, i: int)
    requires IsFirstWithId(songs, id, i)
    ensures Find(songs, id) == Some(songs[i])
  {
    var r := Find(songs, id);
    assert HasId(songs, id);
    var i' :| IsFirstWithId(songs, id, i') && songs[i'] == r.value;
    assert i' == i;
  }
}

=== FILE: page.dfy ===
/** The whole page: the selection/menu state and the autoscroll controller
    driven by the events the script listens to, one handler run per event. */
module Page {
  import opened Wrappers
  import opened Catalog
  import Text
  import Render
  import App
  import Autoscroll

  datatype PageState = PageState(app: App.AppState, scroller: Autoscroll.Scroller)

  /** The events the script has listeners for. step is the step
      `startAutoscroll` would compute from the slider at that moment;
      maxScroll is the document's height less the viewport's at the tick. */
  datatype Event =
    | EntryClick(index: nat)
    | MenuToggleClick
    | SearchInput(query: string)
    | AutoscrollClick(step: int)
    | SliderChange(step: int)
    | IntervalFired(timer: Autoscroll.TimerId, maxScroll: int)
    | Wheel
    | TouchMove
    | Resize

  /** The page once `init` has run */
  function Init(fetched: Option<seq<Song>>, menuOpen: bool, button: Option<string>, slider: bool,
                scrollY: int): PageState
  {
    PageState(App.Init(fetched, menuOpen), Autoscroll.Initial(button, slider, scrollY))
  }

  /** `loadSong` as a whole: on a hit it also scrolls the window to the top;
      it leaves the autoscroll controller running if it was. */
  function ShowSong(p: PageState, id: SongId): PageState {
    if !HasId(p.app.songs, id) then p
    else PageState(App.LoadSong(p.app, id), p.scroller.(scrollY := 0))
  }

  function Step(p: PageState, e: Event): PageState {
    match e
    case EntryClick(k) =>
      if k < |p.app.list| then ShowSong(p, p.app.list[k].songId) else p
    case MenuToggleClick => p.(app := App.ToggleMenu(p.app))
    case SearchInput(q) => p.(app := App.Search(p.app, q))
    case AutoscrollClick(step) => p.(scroller := Autoscroll.ButtonClick(p.scroller, step))
    case SliderChange(step) => p.(scroller := Autoscroll.SliderInput(p.scroller, step))
    case IntervalFired(t, maxScroll) => p.(scroller := Autoscroll.Tick(p.scroller, t, maxScroll))
    case Wheel => p.(scroller := Autoscroll.Stop(p.scroller))
    case TouchMove => p.(scroller := Autoscroll.Stop(p.scroller))
    case Resize => p.(scroller := Autoscroll.Stop(p.scroller))
  }

  function Run(p: PageState, events: seq<Event>): PageState
    decreases |events|
  {
    if events == [] then p else Run(Step(p, events[0]), events[1..])
  }

  predicate Inv(p: PageState) {
    App.Inv(p.app) && Autoscroll.Inv(p.scroller)
  }

  lemma InitInv(fetched: Option<seq<Song>>, menuOpen: bool, button: Option<string>, slider: bool,
                 scrollY: int)
    ensures Inv(Init(fetched, menuOpen, button, slider, scrollY))
  {
  }

  lemma StepPreservesInv(p: PageState, e: Event)
    requires Inv(p)
    ensures Inv(Step(p, e))
  {
    match e
    case EntryClick(k) =>
      if k < |p.app.list| {
        App.LoadSongPreservesInv(p.app, p.app.list[k].songId);
      }
    case MenuToggleClick =>
    case SearchInput(q) => App.SearchPreservesInv(p.app, q);
    case AutoscrollClick(step) => Autoscroll.ButtonClickPreservesInv(p.scroller, step);
    case SliderChange(step) => Autoscroll.SliderInputPreservesInv(p.scroller, step);
    case IntervalFired(t, maxScroll) => Autoscroll.TickPreservesInv(p.scroller, t, maxScroll);
    case Wheel =>
    case TouchMove =>
    case Resize =>
  }

  /** Every sequence of events keeps the invariant: at most one interval is
      ever live, and the song view always renders the selected song. */
  lemma {:induction false} RunPreservesInv(p: PageState, events: seq<Event>)
    requires Inv(p)
    ensures Inv(Run(p, events))
    ensures |Run(p, events).scroller.timers.Keys| <= 1
    decreases |events|
  {
    if events != [] {
      StepPreservesInv(p, events[0]);
      RunPreservesInv(Step(p, events[0]), events[1..]);
    }
    Autoscroll.AtMostOneTimer(Run(p, events).scroller);
  }

  /** A wheel, touchmove or resize event stops autoscroll in any state, and
      touches nothing but the controller. */
  lemma ManualScrollStops(p: PageState, e: Event)
    requires e == Wheel || e == TouchMove || e == Resize
    ensures Step(p, e) == p.(scroller := Autoscroll.Stop(p.scroller))
    ensures !Step(p, e).scroller.running && Step(p, e).scroller.handle == None
    ensures Inv(p) ==> Step(p, e).scroller.timers == map[]
  {
  }

  /** A click of the menu toggle flips the menu; two give back the page as
      it was. */
  lemma ToggleTwiceRestores(p: PageState)
    ensures Step(p, MenuToggleClick).app.menuOpen == !p.app.menuOpen
    ensures Step(Step(p, MenuToggleClick), MenuToggleClick) == p
  {
  }

  /** Moving the slider while autoscroll is stopped changes nothing. */
  lemma SliderWhileStoppedIsNoop(p: PageState, step: int)
    requires !p.scroller.running
    ensures Step(p, SliderChange(step)) == p
  {
  }

  /** Clicking an entry of the list shows the first catalog song carrying
      the entry's id (another song when an earlier one shares the id),
      scrolls to the top and keeps the autoscroll controller as it was
      otherwise. */
  lemma EntryClickShowsSong(p: PageState, k: nat)
    requires Inv(p) && k < |p.app.list|
    ensures Step(p, EntryClick(k)).app.currentSongId == Some(p.app.list[k].songId)
    ensures Find(p.app.songs, p.app.list[k].songId).Some?
    ensures Step(p, EntryClick(k)).app.content
            == App.Showing(Render.RenderSong(Find(p.app.songs, p.app.list[k].songId).value))
    ensures Step(p, EntryClick(k)).scroller == p.scroller.(scrollY := 0)
  {
    App.ClickedEntryIsHit(p.app, k);
  }

  /** The autoscroll button starts a stopped controller and stops a running
      one, whenever the button and the slider exist. */
  lemma AutoscrollClickToggles(p: PageState, step: int)
    requires Autoscroll.HasControls(p.scroller)
    ensures Step(p, AutoscrollClick(step)).scroller.running == !p.scroller.running
    ensures Step(p, AutoscrollClick(step)).app == p.app
  {
  }

  /** A live interval short of the bottom advances the page by its step. */
  lemma IntervalAdvances(p: PageState, t: Autoscroll.TimerId, maxScroll: int)
    requires t in p.scroller.timers && p.scroller.scrollY < maxScroll - 2
    ensures Step(p, IntervalFired(t, maxScroll)).scroller.scrollY
            == p.scroller.scrollY + p.scroller.timers[t]
    ensures Step(p, IntervalFired(t, maxScroll)).app == p.app
  {
  }

  /** An all-white-space search lists the whole catalog again. */
  lemma BlankSearchListsCatalog(p: PageState, q: string)
    requires Text.AllTrimmable(q)
    ensures Step(p, SearchInput(q)).app.list == Render.Entries(p.app.songs)
    ensures Step(p, SearchInput(q)).scroller == p.scroller
  {
    App.SearchEmptyQuery(p.app, q);
  }
}

=== FILE: render.dfy ===
/** What the script writes into the page, as structure instead of markup:
    the entries of the song list and the token stream of a displayed song.
    A parser for that stream shows that the rendering loses nothing. */
module Render {
  import opened Wrappers
  import opened Catalog

  /** One `<li class="song-item">` of the song list: its text and the id
      kept in `data-song-id` (and used by its click handler). */
  datatype ListEntry = ListEntry(text: string, songId: SongId)

  function EntryText(song: Song): string {
    song.title + " - " + song.artist
  }

  function Entries(shown: seq<Song>): (r: seq<ListEntry>)
    ensures |r| == |shown|
    ensures forall i :: 0 <= i < |shown| ==>
              r[i].text == shown[i].title + " - " + shown[i].artist && r[i].songId == shown[i].id
  {
    if shown == [] then [] else [ListEntry(EntryText(shown[0]), shown[0].id)] + Entries(shown[1..])
  }

  /** `renderSongList(filteredSongs)`: `filteredSongs || songs` falls back
      to the catalog only when no list is passed, because an empty array is
      truthy; the list then holds one entry per song, in order. */
  function RenderSongList(filtered: Option<seq<Song>>, songs: seq<Song>): (r: seq<ListEntry>)
    ensures filtered.None? ==>
              && |r| == |songs|
              && forall i :: 0 <= i < |songs| ==> r[i] == ListEntry(EntryText(songs[i]), songs[i].id)
    ensures filtered.Some? ==>
              && |r| == |filtered.value|
              && forall i :: 0 <= i < |r| ==> r[i] == ListEntry(EntryText(filtered.value[i]), filtered.value[i].id)
  {
    Entries(ValueOr(filtered, songs))
  }

  /** The pieces of text the song view shows, in document order; SectionEnd
      stands for the `</div>` closing a section. */
  datatype Token =
    | Title(text: string)
    | Artist(text: string)
    | SectionType(text: string)
    | Chord(text: string)
    | Lyric(text: string)
    | SectionEnd

  function RenderLines(lines: seq<Line>): seq<Token> {
    if lines == [] then []
    else [Chord(lines[0].chord), Lyric(lines[0].lyric)] + RenderLines(lines[1..])
  }

  function RenderSections(sections: seq<Section>): seq<Token> {
    if sections == [] then []
    else [SectionType(sections[0].kind)] + RenderLines(sections[0].lines) + [SectionEnd]
         + RenderSections(sections[1..])
  }

  /** The song view `loadSong` builds: header, then every section */
  function RenderSong(song: Song): seq<Token> {
    [Title(song.title), Artist(song.artist)] + RenderSections(song.lyrics)
  }

  /** What a reader of the song view sees: everything of the song but its id */
  datatype SongView = SongView(title: string, artist: string, sections: seq<Section>)

  function ViewOf(song: Song): SongView {
    SongView(song.title, song.artist, song.lyrics)
  }

  /** Reads chord/lyric rows up to and including the SectionEnd. */
  function ParseLines(ts: seq<Token>): (r: Option<(seq<Line>, seq<Token>)>)
    ensures r.Some? ==> |r.value.1| < |ts|
    decreases |ts|
  {
    if |ts| >= 1 && ts[0] == SectionEnd then Some(([], ts[1..]))
    else if |ts| >= 2 && ts[0].Chord? && ts[1].Lyric? then
      match ParseLines(ts[2..])
      case None => None
      case Some((lines, rest)) => Some(([Line(ts[0].text, ts[1].text)] + lines, rest))
    else None
  }

  function ParseSections(ts: seq<Token>): Option<seq<Section>>
    decreases |ts|
  {
    if ts == [] then Some([])
    else if ts[0].SectionType? then
      match ParseLines(ts[1..])
      case None => None
      case Some((lines, rest)) =>
        match ParseSections(rest)
        case None => None
        case Some(sections) => Some([Section(ts[0].text, lines)] + sections)
    else None
  }

  /** Reads a song view back from its tokens. */
  function ParseSong(ts: seq<Token>): Option<SongView> {
    if |ts| >= 2 && ts[0].Title? && ts[1].Artist? then
      match ParseSections(ts[2..])
      case None => None
      case Some(sections) => Some(SongView(ts[0].text, ts[1].text, sections))
    else None
  }

  lemma {:induction false} ParseLinesRoundTrip(lines: seq<Line>, tail: seq<Token>)
    ensures ParseLines(RenderLines(lines) + [SectionEnd] + tail) == Some((lines, tail))
  {
    if lines != [] {
      var ts := RenderLines(lines) + [SectionEnd] + tail;
      ParseLinesRoundTrip(lines[1..], tail);
      assert ts[2..] == RenderLines(lines[1..]) + [SectionEnd] + tail;
      assert [lines[0]] + lines[1..] == lines;
    } else {
      assert RenderLines(lines) + [SectionEnd] + tail == [SectionEnd] + tail;
    }
  }

  lemma {:induction false} ParseSectionsRoundTrip(sections: seq<Section>)
    ensures ParseSections(RenderSections(sections)) == Some(sections)
  {
    if sections != [] {
      var s := sections[0];
      var ts := RenderSections(sections);
      var rest := RenderSections(sections[1..]);
      assert ts[1..] == RenderLines(s.lines) + [SectionEnd] + rest;
      ParseLinesRoundTrip(s.lines, rest);
      ParseSectionsRoundTrip(sections[1..]);
      assert [s] + sections[1..] == sections;
    }
  }

  /** The song view shows the song's title, artist and every section with
      its type and every line's chord and lyric, in order: reading it back
      gives the song (less its id). */
  lemma RenderSongRoundTrip(song: Song)
    ensures ParseSong(RenderSong(song)) == Some(ViewOf(song))
  {
    ParseSectionsRoundTrip(song.lyrics);
    assert RenderSong(song)[2..] == RenderSections(song.lyrics);
  }

  /** Songs that show the same view differ at most in their id. */
  lemma RenderSongInjective(a: Song, b: Song)
    requires RenderSong(a) == RenderSong(b)
    ensures ViewOf(a) == ViewOf(b)
  {
    RenderSongRoundTrip(a);
    RenderSongRoundTrip(b);
  }
}

=== FILE: scenario.dfy ===
/** A one-song catalog holding "Amazing Grace": the search " Grace " finds
    the song, and showing it displays its header and its single chord/lyric
    row. */
module Scenario {
  import opened Wrappers
  import opened Text
  import opened Catalog
  import opened Render
  import opened App
  import Page

  const grace: Song :=
    Song(1, "Amazing Grace", "Traditional", [Section("verse", [Line("G", "Amazing grace")])])

  lemma LowerQuery()
    ensures Lower(" Grace ") == " grace "
  {
  }

  lemma LeadingOfQuery()
    ensures LeadingCount(" grace ") == 1
  {
  }

  lemma TrailingOfQuery()
    ensures TrailingCount(" grace "[1..]) == 1
  {
    assert " grace "[1..] == "grace ";
  }

  lemma SliceQuery()
    ensures " grace "[1..6] == "grace"
  {
  }

  lemma TrimQuery()
    ensures Trim(" grace ") == "grace"
  {
    LeadingOfQuery();
    TrailingOfQuery();
    SliceQuery();
  }

  lemma NormalizeGrace()
    ensures NormalizeQuery(" Grace ") == "grace"
  {
    LowerQuery();
    TrimQuery();
  }

  lemma LowerFirstWord()
    ensures Lower("Amazing ") == "amazing "
  {
  }

  lemma LowerSecondWord()
    ensures Lower("Grace") == "grace"
  {
  }

  lemma SplitTitle()
    ensures grace.title == "Amazing " + "Grace"
  {
  }

  lemma LowerTitle()
    ensures Lower(grace.title) == "amazing " + "grace"
  {
    LowerFirstWord();
    LowerSecondWord();
    SplitTitle();
    LowerAppend("Amazing ", "Grace");
  }

  lemma GraceMatches()
    ensures Matches(grace, "grace")
  {
    LowerTitle();
    ContainsSuffix("amazing ", "grace");
  }

  lemma FilterGrace()
    ensures Filter([grace], "grace") == [grace]
  {
    GraceMatches();
    assert [grace][..0] == [];
  }

  lemma EntryGrace()
    ensures RenderSongList(Some([grace]), [grace]) == [ListEntry("Amazing Grace - Traditional", 1)]
  {
    assert EntryText(grace) == "Amazing Grace - Traditional";
  }

  lemma SearchGraceFindsIt()
    ensures var s := Search(Init(Some([grace]), false), " Grace ");
            s.menuOpen && s.list == [ListEntry("Amazing Grace - Traditional", 1)]
  {
    var s0 := Init(Some([grace]), false);
    assert s0.songs == [grace] && !s0.menuOpen;
    NormalizeGrace();
    FilterGrace();
    EntryGrace();
    var s1 := Search(s0, " Grace ");
    assert s1.list == RenderSongList(Some([grace]), [grace]);
  }

  lemma ShowGraceDisplaysIt()
    ensures LoadSong(Init(Some([grace]), false), 1).content
            == Showing([Title("Amazing Grace"), Artist("Traditional"),
                        SectionType("verse"), Chord("G"), Lyric("Amazing grace"), SectionEnd])
  {
  }

  const twins: seq<Song> := [Song(7, "A", "x", []), Song(7, "B", "y", [])]

  lemma TwinsViewsDiffer()
    ensures RenderSong(twins[0]) != RenderSong(twins[1])
  {
    assert RenderSong(twins[0])[0] == Title("A");
    assert RenderSong(twins[1])[0] == Title("B");
  }

  lemma TwinsFirstWithId()
    ensures Find(twins, 7) == Some(twins[0])
  {
    assert twins[0].id == 7;
  }

  /** Two songs sharing id 7: clicking the second entry ("B - y") shows the
      first song, because `loadSong` looks the id up with `find`. */
  lemma SharedIdShowsFirst()
    ensures var p := Page.Init(Some(twins), false, None, false, 0);
            && p.app.list[1].text == "B - y"
            && Page.Step(p, Page.EntryClick(1)).app.content == Showing(RenderSong(twins[0]))
            && Page.Step(p, Page.EntryClick(1)).app.content != Showing(RenderSong(twins[1]))
  {
    var p := Page.Init(Some(twins), false, None, false, 0);
    assert p.app.list[1] == ListEntry(EntryText(twins[1]), 7);
    TwinsFirstWithId();
    TwinsViewsDiffer();
  }
}

=== FILE: text.dfy ===
/** The string operations the search handler relies on: `toLowerCase`,
    `trim` and `includes`. Lowercasing is restricted to ASCII letters;
    trimming removes exactly the WhiteSpace and LineTerminator code points
    of ECMA-262. */
module Text {

  /** The code points `String.prototype.trim` removes: TAB, VT, FF, ZWNBSP
      and the Unicode category Zs (WhiteSpace), plus LF, CR, LS and PS
      (LineTerminator). */
  predicate IsTrimmable(c: char) {
    var n := c as int;
    || n == 0x09 || n == 0x0A || n == 0x0B || n == 0x0C || n == 0x0D
    || n == 0x20 || n == 0xA0 || n == 0x1680
    || (0x2000 <= n <= 0x200A)
    || n == 0x2028 || n == 0x2029 || n == 0x202F || n == 0x205F
    || n == 0x3000 || n == 0xFEFF
  }

  predicate AllTrimmable(s: string) {
    forall k :: 0 <= k < |s| ==> IsTrimmable(s[k])
  }

  predicate IsAsciiUpper(c: char) {
    'A' <= c <= 'Z'
  }

  function LowerChar(c: char): (d: char)
    ensures !IsAsciiUpper(d)
    ensures IsAsciiUpper(c) ==> d as int == c as int + 32
    ensures !IsAsciiUpper(c) ==> d == c
  {
    if IsAsciiUpper(c) then (c as int + 32) as char else c
  }

  /** `toLowerCase`, on ASCII letters only */
  function Lower(s: string): (r: string)
    ensures |r| == |s|
    ensures forall i :: 0 <= i < |s| ==> r[i] == LowerChar(s[i])
  {
    if s == [] then [] else [LowerChar(s[0])] + Lower(s[1..])
  }

  /** Lowercasing a lowercased string changes nothing. */
  lemma LowerIdempotent(s: string)
    ensures Lower(Lower(s)) == Lower(s)
  {
  }

  /** Lowercasing works character by character, so it distributes over
      concatenation. */
  lemma LowerAppend(a: string, b: string)
    ensures Lower(a + b) == Lower(a) + Lower(b)
  {
  }

  /** Number of trimmable characters at the start of s */
  function LeadingCount(s: string): (n: nat)
    ensures n <= |s|
    ensures forall k :: 0 <= k < n ==> IsTrimmable(s[k])
    ensures n < |s| ==> !IsTrimmable(s[n])
  {
    if s == [] || !IsTrimmable(s[0]) then 0 else 1 + LeadingCount(s[1..])
  }

  /** Number of trimmable characters at the end of s */
  function TrailingCount(s: string): (n: nat)
    ensures n <= |s|
    ensures forall k :: |s| - n <= k < |s| ==> IsTrimmable(s[k])
    ensures n < |s| ==> !IsTrimmable(s[|s| - 1 - n])
  {
    if s == [] || !IsTrimmable(s[|s| - 1]) then 0 else 1 + TrailingCount(s[..|s| - 1])
  }

  /** What the trailing count says about s itself, once the leading part is cut */
  lemma TrailingOfRest(s: string, a: nat, b: nat)
    requires a <= |s| && b == TrailingCount(s[a..])
    ensures a + b <= |s|
    ensures AllTrimmable(s[|s| - b..])
    ensures a + b < |s| ==> !IsTrimmable(s[|s| - b - 1])
  {
    var rest := s[a..];
    forall k | |s| - b <= k < |s|
      ensures IsTrimmable(s[k])
    {
      assert s[k] == rest[k - a];
    }
    if a + b < |s| {
      assert s[|s| - b - 1] == rest[|rest| - 1 - b];
    }
  }

  /** `String.prototype.trim`: r is a slice of s, everything cut off on
      either side is trimmable, and r neither starts nor ends with a
      trimmable character. */
  function Trim(s: string): (r: string)
    ensures exists a :: 0 <= a <= |s| - |r| && r == s[a..a + |r|]
                      && AllTrimmable(s[..a]) && AllTrimmable(s[a + |r|..])
    ensures r == [] || (!IsTrimmable(r[0]) && !IsTrimmable(r[|r| - 1]))
  {
    var a := LeadingCount(s);
    var b := TrailingCount(s[a..]);
    TrailingOfRest(s, a, b);
    var r := s[a..|s| - b];
    assert a + |r| == |s| - b;
    assert AllTrimmable(s[..a]);
    assert r != [] ==> r[0] == s[a] && r[|r| - 1] == s[|s| - b - 1];
    assert 0 <= a <= |s| - |r| && r == s[a..a + |r|] && AllTrimmable(s[..a]) && AllTrimmable(s[a + |r|..]);
    r
  }

  /** A string trims to nothing exactly when it consists of trimmable characters. */
  lemma TrimEmptyIff(s: string)
    ensures Trim(s) == [] <==> AllTrimmable(s)
  {
    if AllTrimmable(s) {
      assert LeadingCount(s) == |s|;
    }
  }

  /** Trimming twice is trimming once. */
  lemma TrimIdempotent(s: string)
    ensures Trim(Trim(s)) == Trim(s)
  {
    var r := Trim(s);
    if r != [] {
      assert LeadingCount(r) == 0;
      assert TrailingCount(r) == 0;
    }
  }

  /** `String.prototype.includes`: q occurs in s as a contiguous substring */
  predicate Contains(s: string, q: string) {
    q <= s || (s != [] && Contains(s[1..], q))
  }

  ghost predicate OccursAt(s: string, q: string, i: int) {
    0 <= i && i + |q| <= |s| && s[i..i + |q|] == q
  }

  lemma {:induction false} ContainsHasOccurrence(s: string, q: string)
    requires Contains(s, q)
    ensures exists i :: OccursAt(s, q, i)
  {
    if q <= s {
      assert OccursAt(s, q, 0);
    } else {
      ContainsHasOccurrence(s[1..], q);
      var i :| OccursAt(s[1..], q, i);
      assert s[1..][i..i + |q|] == s[i + 1..i + 1 + |q|];
      assert OccursAt(s, q, i + 1);
    }
  }

  lemma {:induction false} OccurrenceIsContained(s: string, q: string, i: int)
    requires OccursAt(s, q, i)
    ensures Contains(s, q)
    decreases i
  {
    if i > 0 {
      assert s[1..][i - 1..i - 1 + |q|] == s[i..i + |q|];
      OccurrenceIsContained(s[1..], q, i - 1);
    }
  }

  /** A string contains each of its suffixes. */
  lemma ContainsSuffix(p: string, q: string)
    ensures Contains(p + q, q)
  {
    assert (p + q)[|p|..|p| + |q|] == q;
    OccurrenceIsContained(p + q, q, |p|);
  }

  /** The recursive containment test agrees with "q occurs at some offset". */
  lemma ContainsIff(s: string, q: string)
    ensures Contains(s, q) <==> exists i :: OccursAt(s, q, i)
  {
    if Contains(s, q) {
      ContainsHasOccurrence(s, q);
    }
    if exists i :: OccursAt(s, q, i) {
      var i :| OccursAt(s, q, i);
      OccurrenceIsContained(s, q, i);
    }
  }
}

=== FILE: wrappers.dfy ===
/** A value that may be absent. The script uses `null` for this, and
    `Array.prototype.find` answers `undefined` on a miss. */
module Wrappers {

  datatype Option<T> = None | Some(value: T)

  /** The present value, or fallback when there is none */
  function ValueOr<T>(o: Option<T>, fallback: T): (v: T)
    ensures o.Some? ==> v == o.value
    ensures o.None? ==> v == fallback
  {
    if o.Some? then o.value else fallback
  }
}
